=== FILE: README.md ===
# KAMI configuration core, modelled in Dafny

This project models the self-contained logic inside KAMI's configuration object
(`KamiConfig`). The rest of that object is glue around the Fiber config library,
ImGui, reflection and file I/O. The modelled pieces are:

- **the key-bind codec.** A bind is saved as `ctrl+`, `alt+`, `shift+` (those set,
  in that order) followed by its key's translation key. It is read back by
  lower-casing, deleting every `ctrl+`, `alt+` and `shift+`, dropping a
  `key.keyboard.` prefix and looking the name up in the key-name table. A name
  not in the table gives the "none" key.
- **the key-name table.** This is every keyboard translation key, with the
  prefix dropped and `.` turned into `-`.
- **bind completion.** Typed text is split after its last `+`. The rest is
  completed from the modifiers and the table's names.
- **the module-window codec.** Windows are saved as an ordered map keyed
  `"<id>-<title>"`. They are read back by splitting the key at its first `-` and
  parsing the id as a 32-bit `Int`.
- **the text-part record codec.** Seven style flags and a colour mode are
  copied. A `type` tag selects literal, variable, or the literal `Invalid part`.
- **the default-extension installer.** It walks a branch/leaf tree. Numeric
  leaves get a drag editor and enumerated leaves get a selector plus completions
  over their valid values. The boolean codec's start-up extension is included.
- **load, save and start-up.** This is a state machine over an abstract file
  state (missing, stored, corrupt, unreadable), the pre-save event's cancel
  answer and the write's success.

Modules: `Strings` (Kotlin string operations), `Numbers` (`Int.toString` and
`String.toInt`), `Binds`, `BindCompletion`, `ModuleWindows`, `TextParts`,
`Installer`, `Persistence`, and `Options`.

The Kotlin string operations are modelled as they behave. `String.replace(part, "")`
scans left to right and does not rescan. So the `ctrl+` flag is set exactly when
the lower-cased text contains `ctrl+`. The `alt+` and `shift+` flags are set when
their text occurs after the earlier deletions. Any `alt+` or `shift+` in the
typed text sets its flag. The converse fails: `alctrl+t+` sets alt
(`Binds.AltFlagWithoutAltText`).

Three behaviours of the code are worth noting; the model follows them:

- the installer calls `extend` on every numeric and enumerated codec, whether
  or not an extension was registered before. That `extend` then replaces the
  earlier extension is an assumption about library code (see "Left out");
- a numeric codec without declared bounds gets step 1 and range 0 to 0;
- a failure of the bootstrap save, made while loading a missing file, escapes
  `loadConfiguration`. It is caught and printed by `initAndLoad`.

## Model

| member | source | states |
|---|---|---|
| Strings.RemoveAllChanges | src/main/kotlin/me/zeroeightsix/kami/setting/KamiConfig.kt:256-261 | deleting a part changes the text exactly when the part occurs in it |
| Binds.BindMap | src/main/kotlin/me/zeroeightsix/kami/setting/KamiConfig.kt:324-330 | no name in the key table contains a `.` |
| Binds.BindMapContents | src/main/kotlin/me/zeroeightsix/kami/setting/KamiConfig.kt:324-330 | every keyboard key's name is in the table, and each name maps to a keyboard key from the enumeration whose name it is |
| Binds.BindMapLastWins | src/main/kotlin/me/zeroeightsix/kami/setting/KamiConfig.kt:324-330 | a key that no later key with the same name shadows is what its name maps to |
| Binds.Lookup | src/main/kotlin/me/zeroeightsix/kami/setting/KamiConfig.kt:273 | a name missing from the table gives the none key; a name in the table gives the key it maps to; any other result is a keyboard key of the enumeration whose table name is the name looked up |
| Binds.RemoveHead | src/main/kotlin/me/zeroeightsix/kami/setting/KamiConfig.kt:256-261 | `remove` on text that starts with the part, or lacks it there, and has it nowhere else, leaves the rest and reports exactly whether the part was there |
| Binds.StripModifiers | src/main/kotlin/me/zeroeightsix/kami/setting/KamiConfig.kt:256-265 | stripping the three modifiers never lengthens the text |
| Binds.StripFlags | src/main/kotlin/me/zeroeightsix/kami/setting/KamiConfig.kt:256-266 | each flag is set exactly when its modifier occurs in the text left by the earlier removals (ctrl, then alt, then shift), and what is left is the text with all three removed in that order |
| Binds.DecodeAsWritten | src/main/kotlin/me/zeroeightsix/kami/setting/KamiConfig.kt:253-274 | decoding never fails: the key is none or a keyboard key whose table name is the stripped text after `key.keyboard.`; that name, when in the table, gives the key it maps to, and a name with a `.` gives none |
| Binds.ModifierFlags | src/main/kotlin/me/zeroeightsix/kami/setting/KamiConfig.kt:254-265 | both decoders set ctrl exactly when the lower-cased text holds `ctrl+`, and set alt or shift whenever it holds `alt+` or `shift+` |
| Binds.RemovingModifierKeeps | src/main/kotlin/me/zeroeightsix/kami/setting/KamiConfig.kt:256-265 | deleting one modifier keeps every occurrence of another |
| Binds.AltFlagWithoutAltText | src/main/kotlin/me/zeroeightsix/kami/setting/KamiConfig.kt:263-264 | `alctrl+t+` has no `alt+` yet decodes with alt set |
| Binds.StripEncoded | src/main/kotlin/me/zeroeightsix/kami/setting/KamiConfig.kt:275-282 | the encoder writes `ctrl+`, `alt+`, `shift+` for the flags set, in that order, then the translation key; stripping the modifiers of that text gives back the three flags and the key |
| Binds.EncodedIsLower | src/main/kotlin/me/zeroeightsix/kami/setting/KamiConfig.kt:275-282 | the encoder's modifiers are lower case, so the saved text of a lower-case key is unchanged by the decoder's lower-casing |
| Binds.DecodeAsWrittenOfEncode | src/main/kotlin/me/zeroeightsix/kami/setting/KamiConfig.kt:252-282 | decoding an encoded bind keeps its flags and looks its key up by the raw suffix after `key.keyboard.` |
| Binds.RoundTripAsWritten | src/main/kotlin/me/zeroeightsix/kami/setting/KamiConfig.kt:252-282 | a bind whose key is registered and has no `.` after `key.keyboard.` survives a save and a load |
| Binds.DottedKeyLost | src/main/kotlin/me/zeroeightsix/kami/setting/KamiConfig.kt:267-273 | a bind whose key has a `.` after `key.keyboard.` comes back from a save and a load with the none key, so it is never restored |
| Binds.KeypadBindLost | src/main/kotlin/me/zeroeightsix/kami/setting/KamiConfig.kt:267-273 | `ctrl+` with the keypad `+` key, saved and loaded, comes back as ctrl with the none key; the corrected decoder keeps it |
| Binds.Decode | src/main/kotlin/me/zeroeightsix/kami/setting/KamiConfig.kt:253-274 | the corrected decoder never fails: the key is none or a keyboard key whose table name is the table name of the stripped text, and that name, when in the table, gives the key it maps to |
| Binds.DecodeOfEncode | src/main/kotlin/me/zeroeightsix/kami/setting/KamiConfig.kt:252-282 | the corrected decoder keeps an encoded bind's flags and looks its key up by its table name |
| Binds.RoundTrip | src/main/kotlin/me/zeroeightsix/kami/setting/KamiConfig.kt:252-282 | with the corrected decoder every lower-case, `+`-free, registered keyboard key round-trips with its flags |
| BindCompletion.BindNames | src/main/kotlin/me/zeroeightsix/kami/setting/KamiConfig.kt:298 | the completion names are exactly the table's names, each once |
| BindCompletion.SplitAtLastPlus | src/main/kotlin/me/zeroeightsix/kami/setting/KamiConfig.kt:293-295 | the typed text is the kept part (empty or ending in its last `+`) followed by a rest without `+` |
| BindCompletion.MatchesMembers | src/main/kotlin/me/zeroeightsix/kami/setting/KamiConfig.kt:297-301 | the matches are exactly the kept part followed by a candidate starting with the typed rest, at most one per candidate |
| BindCompletion.Suggest | src/main/kotlin/me/zeroeightsix/kami/setting/KamiConfig.kt:292-302 | every suggestion is the kept part plus a candidate (modifier or table name) starting with the rest of the lower-cased text after the kept part's length, and every such candidate is suggested |
| Numbers.IntToStringForm | src/main/kotlin/me/zeroeightsix/kami/setting/KamiConfig.kt:246 | the printed id is non-empty, starts with `-` exactly when negative, and is digits apart from that sign |
| Numbers.ParseInt | src/main/kotlin/me/zeroeightsix/kami/setting/KamiConfig.kt:238 | empty text fails, and a result without a leading `-` is not negative |
| Numbers.ParseIntOfDigits | src/main/kotlin/me/zeroeightsix/kami/setting/KamiConfig.kt:238 | a parse succeeds only on an optional `-` or `+` followed by a non-empty run of digits, and yields their signed value; such text whose value is outside 32 bits fails, and within 32 bits parses |
| Numbers.ParseIntToString | src/main/kotlin/me/zeroeightsix/kami/setting/KamiConfig.kt:238 | parsing the printed form of any 32-bit `Int` gives it back |
| ModuleWindows.SplitFirst | src/main/kotlin/me/zeroeightsix/kami/setting/KamiConfig.kt:233 | a split puts the text back together around the first separator, and fails only when there is none |
| ModuleWindows.KeySplits | src/main/kotlin/me/zeroeightsix/kami/setting/KamiConfig.kt:246 | for an id that is not negative, the key splits at its first `-` into the printed id and the whole title; a negative id puts `-` first |
| ModuleWindows.ParseKeyShape | src/main/kotlin/me/zeroeightsix/kami/setting/KamiConfig.kt:233-238 | a key without `-` does not read back; a key that reads back is the id's text, a `-`, and the title, where the id's text has no `-` and parses to the id |
| ModuleWindows.KeyRoundTrip | src/main/kotlin/me/zeroeightsix/kami/setting/KamiConfig.kt:233-246 | a window key reads back as its id and title, even when the title has `-`, exactly when the id is not negative |
| ModuleWindows.KeyInjective | src/main/kotlin/me/zeroeightsix/kami/setting/KamiConfig.kt:246 | two windows with non-negative ids share a key only if they share id and title |
| ModuleWindows.Put | src/main/kotlin/me/zeroeightsix/kami/setting/KamiConfig.kt:247 | storing a key makes it read back the new groups and leaves every other key's groups alone |
| ModuleWindows.PutKeys | src/main/kotlin/me/zeroeightsix/kami/setting/KamiConfig.kt:247 | storing a key adds it to the keys, keeps keys distinct, appends an entry for a new key and keeps the length for a present one |
| ModuleWindows.EncodeWindows | src/main/kotlin/me/zeroeightsix/kami/setting/KamiConfig.kt:243-249 | the saved map has distinct keys, exactly the windows' keys, and no more entries than windows |
| ModuleWindows.LaterWindowWins | src/main/kotlin/me/zeroeightsix/kami/setting/KamiConfig.kt:245-248 | each key holds the groups of the last window with that key |
| ModuleWindows.SameKeyCollapses | src/main/kotlin/me/zeroeightsix/kami/setting/KamiConfig.kt:245-248 | two windows with the same id and title become one entry holding the later one's groups |
| ModuleWindows.DecodeEntries | src/main/kotlin/me/zeroeightsix/kami/setting/KamiConfig.kt:230-242 | decoding fails exactly when some key does not read back; otherwise each entry becomes one window with that key's id and title and its groups |
| ModuleWindows.EncodeUnique | src/main/kotlin/me/zeroeightsix/kami/setting/KamiConfig.kt:243-249 | windows with non-negative ids and no shared (id, title) are saved one entry each, in order |
| ModuleWindows.RoundTrip | src/main/kotlin/me/zeroeightsix/kami/setting/KamiConfig.kt:229-250 | such windows load back unchanged after a save |
| ModuleWindows.NegativeIdBreaksLoad | src/main/kotlin/me/zeroeightsix/kami/setting/KamiConfig.kt:233-246 | a window with a negative id is saved under a key that fails to load |
| TextParts.Decode | src/main/kotlin/me/zeroeightsix/kami/setting/KamiConfig.kt:116-165 | all flags and the colour mode are copied; `literal` keeps the value; `variable` gives the named variable if it is known and the `none` variable otherwise; any other tag gives the literal `Invalid part` |
| TextParts.Encode | src/main/kotlin/me/zeroeightsix/kami/setting/KamiConfig.kt:166-184 | the flags and colour mode are written unchanged; a literal is written with tag `literal` and its text, a variable with tag `variable` and its name |
| TextParts.RoundTrip | src/main/kotlin/me/zeroeightsix/kami/setting/KamiConfig.kt:116-184 | a part whose variable is known survives a save and a load |
| TextParts.DecodeNormalises | src/main/kotlin/me/zeroeightsix/kami/setting/KamiConfig.kt:129-163 | a loaded part, saved and loaded again, is unchanged |
| Installer.DragEditor | src/main/kotlin/me/zeroeightsix/kami/setting/KamiConfig.kt:370-379 | the drag editor uses the declared increment, minimum and maximum, with 1, 0 and 0 where absent |
| Installer.InstallLeaf | src/main/kotlin/me/zeroeightsix/kami/setting/KamiConfig.kt:359-404 | only numeric and enumerated leaves are extended; a numeric leaf gets the drag editor, an enumerated one a selector and completions over its valid values |
| Installer.Install | src/main/kotlin/me/zeroeightsix/kami/setting/KamiConfig.kt:349-357 | a leaf is extended by the leaf installer; a branch keeps its name and its number of items, and each item is installed in place |
| Installer.InstallAll | src/main/kotlin/me/zeroeightsix/kami/setting/KamiConfig.kt:352 | every item of a branch is installed, in order, and none is added or dropped |
| Installer.InstallVisitsEveryLeaf | src/main/kotlin/me/zeroeightsix/kami/setting/KamiConfig.kt:349-357 | the leaves of the installed tree are the original leaves, in order, each installed exactly once |
| Installer.InstallOnlyExtends | src/main/kotlin/me/zeroeightsix/kami/setting/KamiConfig.kt:349-357 | installing changes no name, kind or branch structure |
| Installer.InstallIdempotent | src/main/kotlin/me/zeroeightsix/kami/setting/KamiConfig.kt:359-404 | installing twice is the same as installing once |
| Installer.SelectorIndex | src/main/kotlin/me/zeroeightsix/kami/setting/KamiConfig.kt:394 | the selector starts at the first position of the current value, or -1 exactly when the value is not valid |
| Installer.EnumEditorCoversValidValues | src/main/kotlin/me/zeroeightsix/kami/setting/KamiConfig.kt:386-401 | the selector's choices and the completions are exactly the valid values, and a valid value is where the selector starts |
| Installer.FormatBool | src/main/kotlin/me/zeroeightsix/kami/setting/KamiConfig.kt:336-338 | a formatted boolean is one of the two completions, the first exactly for true |
| Installer.ParseBool | src/main/kotlin/me/zeroeightsix/kami/setting/KamiConfig.kt:338-339 | parsing yields true exactly for the four letters of `true` in any letter case |
| Installer.BoolRoundTrip | src/main/kotlin/me/zeroeightsix/kami/setting/KamiConfig.kt:334-347 | a formatted boolean parses back to itself, and the two completions parse to true and false |
| Persistence.Save | src/main/kotlin/me/zeroeightsix/kami/setting/KamiConfig.kt:564-576 | a cancelled event or an absent tree writes nothing; otherwise the tree is stored, or, when the write fails, the failure is reported and the file is left as it was |
| Persistence.Load | src/main/kotlin/me/zeroeightsix/kami/setting/KamiConfig.kt:538-558 | an absent tree is a no-op; a stored document replaces the tree; a failed bootstrap save escapes and leaves the file missing; a cancelled bootstrap save still logs the file as generated while it stays missing; a corrupt or unreadable file is logged and leaves the tree alone |
| Persistence.InitAndLoad | src/main/kotlin/me/zeroeightsix/kami/setting/KamiConfig.kt:410-424 | a tree is returned exactly when construction succeeded; for a built tree the result is what loading gives: a stored document's values, the built tree otherwise, the file as loading leaves it, the load's log (with the escaped bootstrap failure's stack trace) and then `Settings loaded` |
| Persistence.Bootstrap | src/main/kotlin/me/zeroeightsix/kami/setting/KamiConfig.kt:551-553 | a missing file is created from the tree's current values and the generation is logged |
| Persistence.LoadIdempotent | src/main/kotlin/me/zeroeightsix/kami/setting/KamiConfig.kt:539-557 | loading again right after a load changes neither the tree nor the file |
| Persistence.SaveThenLoad | src/main/kotlin/me/zeroeightsix/kami/setting/KamiConfig.kt:539-576 | what a successful save writes, the next load reads back |
| Persistence.StartupKeepsTree | src/main/kotlin/me/zeroeightsix/kami/setting/KamiConfig.kt:410-424 | start-up with a built tree always returns a tree: the stored document's values when the file holds one, and the constructed tree in every other case |

## Left out

- ImGui rendering: the colour editor, checkbox, drag, combo and the bind's "Bound to" widget are UI side effects. Only the editor parameters (drag bounds, selector choices) are modelled.
- Floating point and big decimals: the colour list to `Colour` conversion, the hex colour format and parse, the numeric format and parse through `BigDecimal`, and the float conversion of drag bounds are left out. Bounds are carried as exact reals.
- The text part's `colour` field is left out because it is a float list. The colour mode is carried by its enum constant name, and its enum validation is not modelled.
- Reflection and tree building are unseen library code: annotation scanning (`findAnnotatedSettings`), `INSTANCE` lookup, `applyFromPojo`, the settings builder, `constructConfiguration`, `constructFeaturesConfiguration`, forking, `PropertyMirror` and `lookupLeaf`. The installer works on a plain branch/leaf tree.
- The other codecs in the file are not part of this model: targets, colour, compiled text, text widgets, widget lists, module references, game profiles and friends.
- Opaque lookups: resolving a module name to a module (windows carry module names), the variable table (a set of known names, where a variable's name is its key) and the game's key enumeration (a given sequence of translation keys).
- `Bind.Code.none()` is modelled as the key `key.keyboard.unknown`. The `Bind` class is not part of this model.
- `splitFirst` is not part of this model. It is taken to split at the first `-`, and a key without `-` is taken to fail to load.
- Completion hands its strings to the command library's suggestion builder. That builder's own filtering, de-duplication and sorting are not modelled.
- Strings.ToLower: maps `A` to `Z` onto `a` to `z` and leaves every other character alone. Kotlin's `toLowerCase()` follows the default locale, so even ASCII letters can map differently (a Turkish locale maps `I` to dotless `ı`), and letters beyond ASCII are mapped too.
- BindCompletion.Suggest: assumes lower-casing keeps the length of the text. The source lower-cases the whole typed text and then cuts it at the index of the last `+` in the original (`KamiConfig.kt` lines 293-295). A `toLowerCase()` that lengthens the text, such as `İ` becoming `i` plus a combining dot, moves that cut, so the source can suggest nothing where the model suggests (`İ+a` gives the source the rest `+a` and the model the rest `a`).
- Strings: a Dafny `char` is a Unicode scalar value, while a Kotlin `String` is a sequence of UTF-16 code units. A character outside the Basic Multilingual Plane has length 2 in Kotlin and 1 here, and lone surrogates, which Kotlin strings can hold, are not modelled.
- Binds.StripModifiers: its own contract bounds only the length of what is left. The flags and the remaining text are stated by Binds.StripFlags and Binds.ModifierFlags.
- Numbers.ParseInt: its own contract states only the empty-text failure and the sign of a result. The accepted syntax, the value and the 32-bit range are stated by Numbers.ParseIntOfDigits.
- Numbers.ParseInt: accepts ASCII digits only. Kotlin's `toInt` also accepts other Unicode decimal digits.
- Persistence.Load: treats deserialization as all or nothing. Fiber applies the document leaf by leaf, and partial hydration before a failure is not modelled.
- Persistence.Save: a failed write leaves the previous file state. A write that fails part-way may really leave a truncated file.
- TextParts.Decode: takes the record's fields as already typed. Fiber validates the record shape before the casts run.
- The enumerated leaf's text codec (`toString` to format, the codec's `toRuntimeType` to parse, lines 389-392) is not modelled. The enum constants and their conversion are library code, so the extension is carried as its selector choices and completions only.
- Group order: a window's groups are a Dafny `map`, which has no order. The source copies them with `mapValues` and `toMutableMap`, which keep insertion order, so the order of groups within a window is not modelled.
- Installer.InstallLeaf: replaces any extension a numeric or enumerated leaf already carried. This assumes that the codec's `extend`, which is library code outside this model, replaces an earlier registration.
- TextParts.Decode: requires the variable table to hold `none` for every record. The source needs that entry only when a variable name is unknown (the `!!` at `KamiConfig.kt` line 142), so literal records would decode without it; the model assumes the table always holds `none`.
- Concurrency and the event bus: the pre-save event is reduced to its cancelled answer. The observers are not modelled.

## Findings

| source | as written | input that shows it | evidently intended | confidence | as-written member | corrected member |
|---|---|---|---|---|---|---|
| src/main/kotlin/me/zeroeightsix/kami/setting/KamiConfig.kt:267-273 | after dropping `key.keyboard.` the decoder looks the name up as it stands, but the table's names have `.` turned into `-` (line 327), so no name with a `.` is ever found | a bind of ctrl with the keypad `+` key is saved as `ctrl+key.keyboard.keypad.add` and loads as ctrl with the none key | the decoder normalises the name as the table does, so every saved registered key loads back | medium, not executed | Binds.DecodeAsWritten (shown by Binds.KeypadBindLost and Binds.DottedKeyLost) | Binds.Decode (proved by Binds.RoundTrip) |

=== FILE: binds.dfy ===
/**
 The key-bind string codec: a bind is written as its modifier flags
 (`ctrl+`, `alt+`, `shift+`, in that order) followed by the translation key of
 its keyboard key, and read back by lower-casing, stripping the modifiers,
 dropping the `key.keyboard.` prefix and looking the remaining name up in a
 name table built from the game's keyboard keys.
 */
module Binds {
  import opened Strings

  const Ctrl: String := "ctrl+"
  const Alt: String := "alt+"
  const Shift: String := "shift+"

  /** The prefix the decoder drops and the name table strips. */
  const KeyboardPrefix: String := "key.keyboard."

  /** The marker a translation key must start with to enter the name table (no trailing dot). */
  const KeyboardMarker: String := "key.keyboard"

  /** A keyboard key, identified by its translation key. */
  datatype Code = Code(translationKey: String)

  /** `Bind.Code.none()`: the game's unknown key. */
  const NoneCode: Code := Code("key.keyboard.unknown")

  datatype Bind = Bind(ctrl: bool, alt: bool, shift: bool, code: Code)

  /* ---------------------------------------------------------------------
     The name table
     --------------------------------------------------------------------- */

  predicate IsKeyboardKey(k: String) {
    StartsWith(k, KeyboardMarker)
  }

  /** The table name of a translation key: prefix removed, every `.` turned into `-`. */
  function NameOf(k: String): String {
    ReplaceChar(RemovePrefix(k, KeyboardPrefix), '.', '-')
  }

  /**
   The name table, built from the game's translation keys in enumeration
   order; a later key whose name is already present replaces the earlier one.
   */
  function BindMap(keys: seq<String>): (m: map<String, Code>)
    ensures forall n | n in m :: '.' !in n
    decreases |keys|
  {
    if |keys| == 0 then map[]
    else
      var m := BindMap(keys[..|keys| - 1]);
      var k := keys[|keys| - 1];
      if IsKeyboardKey(k) then m[NameOf(k) := Code(k)] else m
  }

  /** The table holds a name exactly for the keyboard keys, each bound to a key with that name. */
  lemma {:induction false} BindMapContents(keys: seq<String>)
    ensures forall i | 0 <= i < |keys| && IsKeyboardKey(keys[i]) :: NameOf(keys[i]) in BindMap(keys)
    ensures forall n | n in BindMap(keys) ::
              BindMap(keys)[n].translationKey in keys
              && IsKeyboardKey(BindMap(keys)[n].translationKey)
              && NameOf(BindMap(keys)[n].translationKey) == n
    decreases |keys|
  {
    if |keys| > 0 {
      var init := keys[..|keys| - 1];
      BindMapContents(init);
      forall i | 0 <= i < |keys| && IsKeyboardKey(keys[i])
        ensures NameOf(keys[i]) in BindMap(keys)
      {
        if i < |keys| - 1 {
          assert keys[i] == init[i];
        }
      }
    }
  }

  /** A key that no later key shadows is what its name maps to. */
  lemma {:induction false} BindMapLastWins(keys: seq<String>, i: int)
    requires 0 <= i < |keys| && IsKeyboardKey(keys[i])
    requires forall j | i < j < |keys| && IsKeyboardKey(keys[j]) :: NameOf(keys[j]) != NameOf(keys[i])
    ensures NameOf(keys[i]) in BindMap(keys) && BindMap(keys)[NameOf(keys[i])] == Code(keys[i])
    decreases |keys|
  {
    if i < |keys| - 1 {
      var init := keys[..|keys| - 1];
      assert init[i] == keys[i];
      forall j | i < j < |init| && IsKeyboardKey(init[j])
        ensures NameOf(init[j]) != NameOf(init[i])
      {
        assert init[j] == keys[j];
      }
      BindMapLastWins(init, i);
    }
  }

  /** The key `k` is what the table maps its name to. */
  predicate Registered(keys: seq<String>, k: String) {
    NameOf(k) in BindMap(keys) && BindMap(keys)[NameOf(k)] == Code(k)
  }

  /** `bindMap[name] ?: Bind.Code.none()` */
  function Lookup(keys: seq<String>, name: String): (c: Code)
    ensures c == NoneCode || (c.translationKey in keys && IsKeyboardKey(c.translationKey))
    ensures name !in BindMap(keys) ==> c == NoneCode
    ensures c == NoneCode || NameOf(c.translationKey) == name
    ensures name in BindMap(keys) ==> c == BindMap(keys)[name]
  {
    BindMapContents(keys);
    if name in BindMap(keys) then BindMap(keys)[name] else NoneCode
  }

  /* ---------------------------------------------------------------------
     Decoding
     --------------------------------------------------------------------- */

  /** The decoder's local `remove(part)`: the text without `part`, and whether it changed. */
  function Remove(s: String, part: String): (String, bool)
    requires |part| > 0
  {
    var removed := RemoveAll(s, part);
    (removed, s != removed)
  }

  datatype Stripped = Stripped(ctrl: bool, alt: bool, shift: bool, rest: String)

  /** Strips the modifiers in the order ctrl, alt, shift. */
  function StripModifiers(s: String): (m: Stripped)
    ensures |m.rest| <= |s|
  {
    var (s1, ctrl) := Remove(s, Ctrl);
    var (s2, alt) := Remove(s1, Alt);
    var (s3, shift) := Remove(s2, Shift);
    Stripped(ctrl, alt, shift, s3)
  }

  /** Each flag records whether its modifier occurred in the text left by the earlier removals. */
  lemma StripFlags(s: String)
    ensures StripModifiers(s).ctrl <==> Contains(s, Ctrl)
    ensures StripModifiers(s).alt <==> Contains(RemoveAll(s, Ctrl), Alt)
    ensures StripModifiers(s).shift <==> Contains(RemoveAll(RemoveAll(s, Ctrl), Alt), Shift)
    ensures StripModifiers(s).rest == RemoveAll(RemoveAll(RemoveAll(s, Ctrl), Alt), Shift)
  {
    RemoveAllChanges(s, Ctrl);
    RemoveAllChanges(RemoveAll(s, Ctrl), Alt);
    RemoveAllChanges(RemoveAll(RemoveAll(s, Ctrl), Alt), Shift);
  }

  /**
   The decoder as the source writes it: the name left after the prefix is
   looked up as it stands, so a name with a `.` in it is never found.
   */
  function DecodeAsWritten(keys: seq<String>, text: String): (b: Bind)
    ensures b.code == NoneCode || (b.code.translationKey in keys && IsKeyboardKey(b.code.translationKey))
    ensures b.code == NoneCode || NameOf(b.code.translationKey) == RemovePrefix(StripModifiers(ToLower(text)).rest, KeyboardPrefix)
    ensures '.' in RemovePrefix(StripModifiers(ToLower(text)).rest, KeyboardPrefix) ==> b.code == NoneCode
    ensures var name := RemovePrefix(StripModifiers(ToLower(text)).rest, KeyboardPrefix);
      name in BindMap(keys) ==> b.code == BindMap(keys)[name]
  {
    var m := StripModifiers(ToLower(text));
    Bind(m.ctrl, m.alt, m.shift, Lookup(keys, RemovePrefix(m.rest, KeyboardPrefix)))
  }

  /**
   The decoder with the name normalised the way the table normalises it
   (`.` turned into `-`), so that every encoded registered key is found again.
   */
  function Decode(keys: seq<String>, text: String): (b: Bind)
    ensures b.code == NoneCode || (b.code.translationKey in keys && IsKeyboardKey(b.code.translationKey))
    ensures b.code == NoneCode || NameOf(b.code.translationKey) == NameOf(StripModifiers(ToLower(text)).rest)
    ensures var name := NameOf(StripModifiers(ToLower(text)).rest);
      name in BindMap(keys) ==> b.code == BindMap(keys)[name]
  {
    var m := StripModifiers(ToLower(text));
    Bind(m.ctrl, m.alt, m.shift, Lookup(keys, NameOf(m.rest)))
  }

  /** No two different modifiers can overlap in any text. */
  lemma ModifiersDisjoint(s: String, p: String, q: String, i: int, j: int)
    requires p in [Ctrl, Alt, Shift] && q in [Ctrl, Alt, Shift] && p != q
    requires OccursAt(s, q, i) && OccursAt(s, p, j)
    ensures j + |p| <= i || i + |q| <= j
  {
    if i < j + |p| && j < i + |q| {
      // The overlap holds the last character of one of the two, a `+`, which
      // the other has only as its own last character; when both end at the
      // same place their third-last characters differ.
      if j + |p| == i + |q| {
        OccursAtChar(s, p, j, |p| - 3);
        OccursAtChar(s, q, i, |q| - 3);
      } else if j + |p| < i + |q| {
        OccursAtChar(s, p, j, |p| - 1);
        OccursAtChar(s, q, i, j + |p| - 1 - i);
      } else {
        OccursAtChar(s, q, i, |q| - 1);
        OccursAtChar(s, p, j, i + |q| - 1 - j);
      }
    }
  }

  /** Removing modifier `p` keeps every occurrence of a different modifier `q`. */
  lemma RemovingModifierKeeps(s: String, p: String, q: String)
    requires p in [Ctrl, Alt, Shift] && q in [Ctrl, Alt, Shift] && p != q
    requires Contains(s, q)
    ensures Contains(RemoveAll(s, p), q)
  {
    var i :| 0 <= i <= |s| - |q| && OccursAt(s, q, i);
    forall j | 0 <= j <= |s| - |p| && OccursAt(s, p, j)
      ensures j + |p| <= i || i + |q| <= j
    {
      ModifiersDisjoint(s, p, q, i, j);
    }
    RemoveAllKeepsOccurrence(s, p, q, i);
  }

  /**
   Both decoders set ctrl exactly when the lower-cased text holds `ctrl+`, and
   set alt or shift whenever the lower-cased text holds `alt+` or `shift+`.
   */
  lemma ModifierFlags(keys: seq<String>, text: String)
    ensures DecodeAsWritten(keys, text).ctrl <==> Contains(ToLower(text), Ctrl)
    ensures Decode(keys, text).ctrl <==> Contains(ToLower(text), Ctrl)
    ensures Contains(ToLower(text), Alt) ==> DecodeAsWritten(keys, text).alt && Decode(keys, text).alt
    ensures Contains(ToLower(text), Shift) ==> DecodeAsWritten(keys, text).shift && Decode(keys, text).shift
  {
    var s := ToLower(text);
    StripFlags(s);
    if Contains(s, Alt) {
      RemovingModifierKeeps(s, Ctrl, Alt);
    }
    if Contains(s, Shift) {
      RemovingModifierKeeps(s, Ctrl, Shift);
      RemovingModifierKeeps(RemoveAll(s, Ctrl), Alt, Shift);
    }
  }

  const SplitAlt: String := "alctrl+t+"

  lemma SplitAltLacksAlt()
    ensures !Contains(SplitAlt, Alt)
  {
    forall i | 0 <= i <= |SplitAlt| - |Alt|
      ensures !OccursAt(SplitAlt, Alt, i)
    {
      var w := SplitAlt[i..i + |Alt|];
      assert w[0] == SplitAlt[i] && w[1] == SplitAlt[i + 1] && w[2] == SplitAlt[i + 2] && w[3] == SplitAlt[i + 3];
    }
  }

  lemma SplitAltJoins()
    ensures RemoveAll(SplitAlt, Ctrl) == Alt
  {
    var s := SplitAlt;
    assert s[..|Ctrl|][0] == 'a';
    assert s[1..][..|Ctrl|][0] == 'l';
    assert s[2..][..|Ctrl|] == Ctrl;
    assert s[7..] == "t+";
    assert RemoveAll("t+", Ctrl) == "t+";
    assert RemoveAll(s, Ctrl) == "al" + RemoveAll(s[7..], Ctrl);
  }

  /**
   The converse fails: deleting `ctrl+` can join the pieces of an `alt+`, so the
   alt flag can be set by a text that never contained `alt+`.
   */
  lemma AltFlagWithoutAltText(keys: seq<String>)
    ensures !Contains(ToLower(SplitAlt), Alt)
    ensures DecodeAsWritten(keys, SplitAlt).alt && Decode(keys, SplitAlt).alt
  {
    assert ToLower(SplitAlt) == SplitAlt;
    SplitAltLacksAlt();
    SplitAltJoins();
    assert OccursAt(Alt, Alt, 0);
    StripFlags(SplitAlt);
  }

  /* ---------------------------------------------------------------------
     Encoding and the round trip
     --------------------------------------------------------------------- */

  function Modifiers(b: Bind): String {
    (if b.ctrl then Ctrl else "") + (if b.alt then Alt else "") + (if b.shift then Shift else "")
  }

  /** The encoder: the set modifiers in the order ctrl, alt, shift, then the translation key. */
  function Encode(b: Bind): String {
    Modifiers(b) + b.code.translationKey
  }

  /** A translation key the encoder writes in a form the decoder can read back. */
  predicate Encodable(k: String) {
    StartsWith(k, KeyboardPrefix) && IsLower(k) && '+' !in k
  }

  /** The part of a keyboard translation key after `key.keyboard.`. */
  function Suffix(k: String): String {
    RemovePrefix(k, KeyboardPrefix)
  }

  /** Removing `p` from `p + t`, or from `t` alone, where `t` does not contain `p`, leaves `t`. */
  lemma RemoveHead(h: String, p: String, t: String)
    requires |p| > 0 && (h == p || h == []) && !Contains(t, p)
    ensures Remove(h + t, p) == (t, h == p)
  {
    RemoveAllChanges(t, p);
    if h == p {
      assert (h + t)[..|p|] == p && (h + t)[|p|..] == t;
    } else {
      assert h + t == t;
    }
  }

  /** The three removal steps of `StripModifiers`, one at a time. */
  lemma StripSteps(s: String, s1: String, s2: String, s3: String, c: bool, a: bool, sh: bool)
    requires Remove(s, Ctrl) == (s1, c) && Remove(s1, Alt) == (s2, a) && Remove(s2, Shift) == (s3, sh)
    ensures StripModifiers(s) == Stripped(c, a, sh, s3)
  {
  }

  /** Stripping three optional modifiers, in order, from the front of `k`. */
  lemma StripThree(c: String, a: String, s: String, k: String)
    requires (c == Ctrl || c == []) && (a == Alt || a == []) && (s == Shift || s == [])
    requires 'c' !in a + s && 'a' !in s && '+' !in k
    ensures StripModifiers(c + (a + (s + k))) == Stripped(c == Ctrl, a == Alt, s == Shift, k)
  {
    var w2 := s + k;
    var w1 := a + w2;
    NotContainedAcross(a + s, k, Ctrl, 0);
    assert (a + s) + k == w1;
    NotContainedAcross(s, k, Alt, 0);
    MissingCharNotContained(k, Shift, 5);
    RemoveHead(c, Ctrl, w1);
    RemoveHead(a, Alt, w2);
    RemoveHead(s, Shift, k);
    StripSteps(c + w1, w1, w2, k, c == Ctrl, a == Alt, s == Shift);
  }

  /** Stripping the modifiers of an encoded bind gives back its flags and its key. */
  lemma StripEncoded(b: Bind)
    requires '+' !in b.code.translationKey
    ensures StripModifiers(Encode(b)) == Stripped(b.ctrl, b.alt, b.shift, b.code.translationKey)
  {
    var k := b.code.translationKey;
    var c := if b.ctrl then Ctrl else "";
    var a := if b.alt then Alt else "";
    var s := if b.shift then Shift else "";
    assert Encode(b) == c + (a + (s + k)) by {
      assert (c + a + s) + k == c + (a + (s + k));
    }
    assert 'c' !in a + s && 'a' !in s;
    StripThree(c, a, s, k);
  }

  lemma EncodedIsLower(b: Bind)
    requires IsLower(b.code.translationKey)
    ensures ToLower(Encode(b)) == Encode(b)
  {
    var m := Modifiers(b);
    assert IsLower(m);
    ToLowerOfLower(Encode(b));
  }

  /** What the source's decoder makes of an encoded bind: flags intact, key looked up by its raw suffix. */
  lemma DecodeAsWrittenOfEncode(keys: seq<String>, b: Bind)
    requires Encodable(b.code.translationKey)
    ensures DecodeAsWritten(keys, Encode(b)) == b.(code := Lookup(keys, Suffix(b.code.translationKey)))
  {
    EncodedIsLower(b);
    StripEncoded(b);
  }

  /** What the corrected decoder makes of an encoded bind: flags intact, key looked up by its table name. */
  lemma DecodeOfEncode(keys: seq<String>, b: Bind)
    requires Encodable(b.code.translationKey)
    ensures Decode(keys, Encode(b)) == b.(code := Lookup(keys, NameOf(b.code.translationKey)))
  {
    EncodedIsLower(b);
    StripEncoded(b);
  }

  lemma NameOfDotFree(k: String)
    requires '.' !in Suffix(k)
    ensures NameOf(k) == Suffix(k)
  {
  }

  /** The none key's suffix, `unknown`, has no `.`. */
  lemma NoneCodeDotFree()
    ensures '.' !in Suffix(NoneCode.translationKey)
  {
    assert StartsWith(NoneCode.translationKey, KeyboardPrefix);
    assert Suffix(NoneCode.translationKey) == "unknown";
  }

  /** The source's round trip holds for a registered key whose suffix has no `.`. */
  lemma RoundTripAsWritten(keys: seq<String>, b: Bind)
    requires Encodable(b.code.translationKey) && Registered(keys, b.code.translationKey)
    requires '.' !in Suffix(b.code.translationKey)
    ensures DecodeAsWritten(keys, Encode(b)) == b
  {
    DecodeAsWrittenOfEncode(keys, b);
    NameOfDotFree(b.code.translationKey);
  }

  /** The source's round trip fails for every key whose suffix has a `.`: the bind comes back with the none key. */
  lemma DottedKeyLost(keys: seq<String>, b: Bind)
    requires Encodable(b.code.translationKey) && '.' in Suffix(b.code.translationKey)
    ensures DecodeAsWritten(keys, Encode(b)) == b.(code := NoneCode)
    ensures DecodeAsWritten(keys, Encode(b)) != b
  {
    DecodeAsWrittenOfEncode(keys, b);
    NoneCodeDotFree();
    assert Suffix(b.code.translationKey) !in BindMap(keys);
  }

  /** The corrected round trip: every encodable registered key comes back with its flags. */
  lemma RoundTrip(keys: seq<String>, b: Bind)
    requires Encodable(b.code.translationKey) && Registered(keys, b.code.translationKey)
    ensures Decode(keys, Encode(b)) == b
  {
    DecodeOfEncode(keys, b);
  }

  const KeypadAdd: String := "key.keyboard.keypad.add"

  lemma KeypadEncodable()
    ensures Encodable(KeypadAdd)
  {
    assert StartsWith(KeypadAdd, KeyboardPrefix);
  }

  /** The keypad `+` key is an encodable registered key whose suffix holds a `.`. */
  lemma KeypadKey()
    ensures Encodable(KeypadAdd) && Registered([KeypadAdd], KeypadAdd)
    ensures Suffix(KeypadAdd) !in BindMap([KeypadAdd])
  {
    KeypadEncodable();
    assert StartsWith(KeypadAdd, KeyboardMarker);
    assert Suffix(KeypadAdd) == "keypad.add";
    assert '.' in Suffix(KeypadAdd);
    BindMapLastWins([KeypadAdd], 0);
  }

  /** The keypad `+` key, saved and loaded again, is lost by the source's decoder and kept by the corrected one. */
  lemma KeypadBindLost(b: Bind)
    requires b == Bind(true, false, false, Code(KeypadAdd))
    ensures DecodeAsWritten([KeypadAdd], Encode(b)) == Bind(true, false, false, NoneCode)
    ensures Decode([KeypadAdd], Encode(b)) == b
  {
    KeypadKey();
    RoundTrip([KeypadAdd], b);
    DecodeAsWrittenOfEncode([KeypadAdd], b);
  }
}

=== FILE: completion.dfy ===
/**
 Completion of partially typed key binds: the text up to its last `+` is kept,
 and the rest is completed from the modifiers and the names of the key table.
 */
module BindCompletion {
  import opened Strings
  import opened Binds

  const ModifierCandidates: seq<String> := [Ctrl, Shift, Alt]

  /** The names of the key table in its iteration order: each name where it was first inserted. */
  function BindNames(keys: seq<String>): (names: seq<String>)
    ensures forall n :: n in names <==> n in BindMap(keys)
    ensures forall i, j | 0 <= i < j < |names| :: names[i] != names[j]
    decreases |keys|
  {
    if |keys| == 0 then []
    else
      var names := BindNames(keys[..|keys| - 1]);
      var k := keys[|keys| - 1];
      if IsKeyboardKey(k) && NameOf(k) !in names then names + [NameOf(k)] else names
  }

  /** Everything offered for completion, modifiers first. */
  function Candidates(keys: seq<String>): seq<String> {
    ModifierCandidates + BindNames(keys)
  }

  /** Splits the typed text after its last `+`; with no `+` the left part is empty. */
  function SplitAtLastPlus(s: String): (parts: (String, String))
    ensures parts.0 + parts.1 == s
    ensures parts.0 == [] || parts.0[|parts.0| - 1] == '+'
    ensures '+' !in parts.1
  {
    var cut := LastIndexOf(s, '+') + 1;
    assert s == s[..cut] + s[cut..];
    (s[..cut], s[cut..])
  }

  /** `t` is the kept left part followed by a candidate that starts with the lower-cased right part. */
  ghost predicate IsSuggestion(keys: seq<String>, remaining: String, t: String) {
    var (left, right) := SplitAtLastPlus(remaining);
    exists c :: c in Candidates(keys) && StartsWith(c, ToLower(right)) && t == left + c
  }

  /** The suggestions for the candidates `cs`, in order: `left` followed by each candidate starting with `right`. */
  function Matches(left: String, cs: seq<String>, right: String): seq<String>
    decreases |cs|
  {
    if |cs| == 0 then []
    else
      var c := cs[|cs| - 1];
      Matches(left, cs[..|cs| - 1], right) + (if StartsWith(c, right) then [left + c] else [])
  }

  /** The matches are exactly `left` followed by a candidate that starts with `right`, at most one per candidate. */
  lemma {:induction false} MatchesMembers(left: String, cs: seq<String>, right: String)
    ensures forall t :: t in Matches(left, cs, right) <==> exists c :: c in cs && StartsWith(c, right) && t == left + c
    ensures |Matches(left, cs, right)| <= |cs|
    decreases |cs|
  {
    if |cs| > 0 {
      var init := cs[..|cs| - 1];
      var c := cs[|cs| - 1];
      MatchesMembers(left, init, right);
      assert cs == init + [c];
      forall t
        ensures t in Matches(left, cs, right) <==> exists d :: d in cs && StartsWith(d, right) && t == left + d
      {
        if d :| d in cs && StartsWith(d, right) && t == left + d {
          if d != c {
            assert d in init;
          }
        }
      }
    }
  }

  /** The completion provider: one suggestion per matching candidate, in candidate order. */
  method Suggest(keys: seq<String>, remaining: String) returns (out: seq<String>)
    ensures forall t :: t in out <==> IsSuggestion(keys, remaining, t)
    ensures |out| <= |Candidates(keys)|
  {
    var cut := LastIndexOf(remaining, '+') + 1;
    var left := remaining[..cut];
    var right := ToLower(remaining)[cut..];
    assert right == ToLower(remaining[cut..]);
    var candidates := ModifierCandidates + BindNames(keys);
    out := [];
    var i := 0;
    while i < |candidates|
      invariant 0 <= i <= |candidates|
      invariant out == Matches(left, candidates[..i], right)
    {
      assert candidates[..i + 1][..i] == candidates[..i];
      if StartsWith(candidates[i], right) {
        out := out + [left + candidates[i]];
      }
      i := i + 1;
    }
    assert candidates[..i] == candidates;
    MatchesMembers(left, candidates, right);
    assert SplitAtLastPlus(remaining) == (left, remaining[cut..]);
  }
}

=== FILE: installer.dfy ===
/**
 The installer of default extensions. It walks a settings tree and gives every
 numeric leaf a drag editor and every enumerated leaf a single-choice selector
 with matching completions; other leaves keep whatever their codec already
 carries. The boolean codec's extension, installed once at start-up, is here
 too.
 */
module Installer {
  import opened Options
  import opened Strings

  /** The declared constraints of a numeric codec; each may be absent. */
  datatype NumberBounds = NumberBounds(minimum: Option<real>, maximum: Option<real>, increment: Option<real>)

  /** The closed set of codec kinds the installer tells apart. */
  datatype Kind =
    | NumberKind(bounds: NumberBounds)
    | EnumKind(validValues: seq<String>)
    | OtherKind

  /** The extension a leaf's codec carries. */
  datatype Extension =
    | NumberEditor(speed: real, min: real, max: real)
    | EnumEditor(choices: seq<String>, suggestions: seq<String>)
    | Custom(id: nat)   // registered when the codec was built (colour, bind, boolean, ...)

  datatype Node =
    | Branch(name: String, items: seq<Node>)
    | Leaf(name: String, kind: Kind, extension: Option<Extension>)

  function OrElse(x: Option<real>, default: real): real {
    match x
    case Some(v) => v
    case None => default
  }

  /** The drag editor of a numeric codec: step 1 and range 0 to 0 where the codec declares none. */
  function DragEditor(b: NumberBounds): (e: Extension)
    ensures e.NumberEditor?
    ensures b.increment.None? ==> e.speed == 1.0
    ensures b.minimum.None? ==> e.min == 0.0
    ensures b.maximum.None? ==> e.max == 0.0
    ensures b.increment.Some? ==> e.speed == b.increment.value
    ensures b.minimum.Some? ==> e.min == b.minimum.value
    ensures b.maximum.Some? ==> e.max == b.maximum.value
  {
    NumberEditor(OrElse(b.increment, 1.0), OrElse(b.minimum, 0.0), OrElse(b.maximum, 0.0))
  }

  /** `installBaseExtension`: dispatch on the closed set of kinds. */
  function InstallLeaf(n: Node): (r: Node)
    requires n.Leaf?
    ensures r.Leaf? && r.name == n.name && r.kind == n.kind
    ensures n.kind.OtherKind? ==> r == n
    ensures n.kind.NumberKind? ==> r.extension == Some(DragEditor(n.kind.bounds))
    ensures n.kind.EnumKind? ==> r.extension == Some(EnumEditor(n.kind.validValues, n.kind.validValues))
  {
    match n.kind
    case NumberKind(b) => n.(extension := Some(DragEditor(b)))
    case EnumKind(values) => n.(extension := Some(EnumEditor(values, values)))
    case OtherKind => n
  }

  /** `installBaseExtensions`: a branch recurses into each of its items, a leaf is extended. */
  function Install(n: Node): (r: Node)
    ensures n.Leaf? ==> r == InstallLeaf(n)
    ensures n.Branch? ==> r.Branch? && r.name == n.name && |r.items| == |n.items|
    ensures n.Branch? ==> forall i | 0 <= i < |n.items| :: r.items[i] == Install(n.items[i])
    decreases n
  {
    match n
    case Leaf(_, _, _) => InstallLeaf(n)
    case Branch(name, items) => Branch(name, InstallAll(items))
  }

  function InstallAll(items: seq<Node>): (r: seq<Node>)
    ensures |r| == |items|
    ensures forall i | 0 <= i < |items| :: r[i] == Install(items[i])
    decreases items
  {
    if |items| == 0 then [] else [Install(items[0])] + InstallAll(items[1..])
  }

  /* ---------------------------------------------------------------------
     Reference views of a tree
     --------------------------------------------------------------------- */

  /** The leaves of a tree in traversal order. */
  function Leaves(n: Node): (r: seq<Node>)
    ensures forall i | 0 <= i < |r| :: r[i].Leaf?
    decreases n
  {
    match n
    case Leaf(_, _, _) => [n]
    case Branch(_, items) => LeavesAll(items)
  }

  function LeavesAll(items: seq<Node>): (r: seq<Node>)
    ensures forall i | 0 <= i < |r| :: r[i].Leaf?
    decreases items
  {
    if |items| == 0 then [] else Leaves(items[0]) + LeavesAll(items[1..])
  }

  /** Every leaf installed, one by one. */
  function InstallEach(leaves: seq<Node>): (r: seq<Node>)
    requires forall i | 0 <= i < |leaves| :: leaves[i].Leaf?
    ensures |r| == |leaves|
    ensures forall i | 0 <= i < |leaves| :: r[i] == InstallLeaf(leaves[i])
  {
    seq(|leaves|, i requires 0 <= i < |leaves| => InstallLeaf(leaves[i]))
  }

  /**
   The installer visits every leaf of every nested branch exactly once, in
   traversal order: the leaves of the installed tree are the original leaves,
   each installed.
   */
  lemma {:induction false} InstallVisitsEveryLeaf(n: Node)
    ensures Leaves(Install(n)) == InstallEach(Leaves(n))
    decreases n
  {
    if n.Branch? {
      InstallAllVisitsEveryLeaf(n.items);
    }
  }

  lemma {:induction false} InstallAllVisitsEveryLeaf(items: seq<Node>)
    ensures LeavesAll(InstallAll(items)) == InstallEach(LeavesAll(items))
    decreases items
  {
    if |items| > 0 {
      InstallVisitsEveryLeaf(items[0]);
      InstallAllVisitsEveryLeaf(items[1..]);
      var rest := InstallAll(items[1..]);
      assert InstallAll(items) == [Install(items[0])] + rest;
      assert ([Install(items[0])] + rest)[1..] == rest;
      assert InstallEach(Leaves(items[0]) + LeavesAll(items[1..]))
          == InstallEach(Leaves(items[0])) + InstallEach(LeavesAll(items[1..]));
    }
  }

  /** The tree with every extension dropped: what the installer must not change. */
  function Erase(n: Node): Node
    decreases n
  {
    match n
    case Leaf(name, kind, _) => Leaf(name, kind, None)
    case Branch(name, items) => Branch(name, EraseAll(items))
  }

  function EraseAll(items: seq<Node>): seq<Node>
    decreases items
  {
    if |items| == 0 then [] else [Erase(items[0])] + EraseAll(items[1..])
  }

  /** The installer changes extensions only: names, kinds and the branch structure stay as they were. */
  lemma {:induction false} InstallOnlyExtends(n: Node)
    ensures Erase(Install(n)) == Erase(n)
    decreases n
  {
    if n.Branch? {
      InstallAllOnlyExtends(n.items);
    }
  }

  lemma {:induction false} InstallAllOnlyExtends(items: seq<Node>)
    ensures EraseAll(InstallAll(items)) == EraseAll(items)
    decreases items
  {
    if |items| > 0 {
      InstallOnlyExtends(items[0]);
      InstallAllOnlyExtends(items[1..]);
      var rest := InstallAll(items[1..]);
      assert ([Install(items[0])] + rest)[1..] == rest;
    }
  }

  /** Installing twice is the same as installing once. */
  lemma {:induction false} InstallIdempotent(n: Node)
    ensures Install(Install(n)) == Install(n)
    decreases n
  {
    if n.Branch? {
      InstallAllIdempotent(n.items);
    }
  }

  lemma {:induction false} InstallAllIdempotent(items: seq<Node>)
    ensures InstallAll(InstallAll(items)) == InstallAll(items)
    decreases items
  {
    if |items| > 0 {
      InstallIdempotent(items[0]);
      InstallAllIdempotent(items[1..]);
      var rest := InstallAll(items[1..]);
      assert ([Install(items[0])] + rest)[1..] == rest;
    }
  }

  /* ---------------------------------------------------------------------
     The enumerated selector
     --------------------------------------------------------------------- */

  /** `values.indexOf(v)`: where the selector starts, -1 when the value is not a valid one. */
  function SelectorIndex(values: seq<String>, v: String): (i: int)
    ensures -1 <= i < |values|
    ensures i >= 0 ==> values[i] == v && forall j | 0 <= j < i :: values[j] != v
    ensures i < 0 <==> v !in values
  {
    if |values| == 0 then -1
    else if values[0] == v then 0
    else
      var i := SelectorIndex(values[1..], v);
      if i < 0 then -1 else i + 1
  }

  /**
   The enumerated selector and completions of an installed leaf range exactly
   over the valid values, and a valid current value is where the selector starts.
   */
  lemma EnumEditorCoversValidValues(n: Node, v: String)
    requires n.Leaf? && n.kind.EnumKind?
    ensures var e := InstallLeaf(n).extension.value;
            e.choices == n.kind.validValues && e.suggestions == n.kind.validValues
    ensures v in n.kind.validValues ==> n.kind.validValues[SelectorIndex(n.kind.validValues, v)] == v
  {
  }

  /* ---------------------------------------------------------------------
     The boolean codec's extension
     --------------------------------------------------------------------- */

  function FormatBool(b: bool): (r: String)
    ensures r in BoolSuggestions
    ensures r == BoolSuggestions[0] <==> b
  {
    if b then "true" else "false"
  }

  /** Kotlin `String.toBoolean()`: true exactly for `true` in any letter case. */
  function ParseBool(s: String): (r: bool)
    ensures r <==> |s| == 4 && forall i | 0 <= i < |s| :: LowerChar(s[i]) == "true"[i]
  {
    ToLower(s) == "true"
  }

  const BoolSuggestions: seq<String> := ["true", "false"]

  /** Formatting and parsing a boolean gives it back; every completion parses to a distinct value. */
  lemma BoolRoundTrip(b: bool)
    ensures ParseBool(FormatBool(b)) == b
    ensures forall i | 0 <= i < |BoolSuggestions| :: ParseBool(BoolSuggestions[i]) == (i == 0)
  {
    assert ToLower("true") == "true";
    assert |ToLower("false")| == 5;
  }
}

=== FILE: numbers.dfy ===
/**
 Decimal rendering and parsing of 32-bit integers, as Kotlin's string
 templates (`"${id}"`) and `String.toInt()` perform them. Only ASCII digits
 are modelled.
 */
module Numbers {
  import opened Options
  import opened Strings

  /** Kotlin `Int`: the values of a signed 32-bit integer. */
  type Int32 = x: int | -0x8000_0000 <= x <= 0x7fff_ffff

  predicate IsDigit(c: char) {
    '0' <= c <= '9'
  }

  predicate AllDigits(s: String) {
    forall i :: 0 <= i < |s| ==> IsDigit(s[i])
  }

  function DigitChar(d: nat): (c: char)
    requires d < 10
    ensures IsDigit(c)
  {
    ('0' as int + d) as char
  }

  /** The decimal digits of `n`, most significant first, without leading zeros. */
  function Digits(n: nat): (r: String)
    ensures |r| > 0 && AllDigits(r)
  {
    if n < 10 then [DigitChar(n)] else Digits(n / 10) + [DigitChar(n % 10)]
  }

  /** Kotlin `Int.toString()`: a leading `-` for negative values, then the digits. */
  function IntToString(i: Int32): (r: String)
  {
    if i < 0 then "-" + Digits(-(i as int)) else Digits(i)
  }

  /** The value of a string of decimal digits (0 for the empty string). */
  function DigitsValue(s: String): nat
    requires AllDigits(s)
  {
    if |s| == 0 then 0
    else DigitsValue(s[..|s| - 1]) * 10 + (s[|s| - 1] as int - '0' as int)
  }

  /** `sign` times the value of `digits`, if those are a non-empty run of digits within 32 bits. */
  function SignedValue(digits: String, sign: int): Option<Int32>
    requires sign == 1 || sign == -1
  {
    if |digits| > 0 && AllDigits(digits) && -0x8000_0000 <= sign * DigitsValue(digits) <= 0x7fff_ffff
    then Some(sign * DigitsValue(digits))
    else None
  }

  /**
   Kotlin `String.toIntOrNull()`; `toInt()` throws where this yields `None`.
   An optional leading `-` or `+` is followed by at least one digit, and the
   value must fit in 32 bits.
   */
  function ParseInt(s: String): (r: Option<Int32>)
    ensures |s| == 0 ==> r == None
    ensures r.Some? && s[0] != '-' ==> r.value >= 0
  {
    if |s| == 0 then None
    else if s[0] < '0' then
      if |s| == 1 then None
      else if s[0] == '-' then SignedValue(s[1..], -1)
      else if s[0] == '+' then SignedValue(s[1..], 1)
      else None
    else SignedValue(s, 1)
  }

  /** The printed form is non-empty, starts with `-` exactly for a negative value, and is digits apart from that sign. */
  lemma IntToStringForm(i: Int32)
    ensures var r := IntToString(i);
      |r| > 0 && (r[0] == '-' <==> i < 0) && (i >= 0 ==> AllDigits(r)) && (i < 0 ==> AllDigits(r[1..]))
  {
  }

  /**
   A parse succeeds exactly on an optional `-` or `+` followed by a non-empty
   run of digits whose signed value fits in 32 bits, and yields that value.
   */
  lemma ParseIntOfDigits(s: String)
    ensures ParseInt(s).Some? ==> exists k | 0 <= k < |s| :: IsDigit(s[k])
    ensures ParseInt(s).Some? ==>
      |s| > 0 &&
      if s[0] == '-' || s[0] == '+' then
        |s| > 1 && AllDigits(s[1..]) &&
        ParseInt(s).value == (if s[0] == '-' then -(DigitsValue(s[1..]) as int) else DigitsValue(s[1..]))
      else
        AllDigits(s) && ParseInt(s).value == DigitsValue(s)
    ensures |s| > 0 && AllDigits(s) && DigitsValue(s) <= 0x7fff_ffff ==> ParseInt(s) == Some(DigitsValue(s))
    ensures |s| > 0 && AllDigits(s) && DigitsValue(s) > 0x7fff_ffff ==> ParseInt(s) == None
    ensures |s| > 1 && s[0] == '+' && AllDigits(s[1..]) && DigitsValue(s[1..]) <= 0x7fff_ffff
            ==> ParseInt(s) == Some(DigitsValue(s[1..]))
    ensures |s| > 1 && s[0] == '+' && AllDigits(s[1..]) && DigitsValue(s[1..]) > 0x7fff_ffff
            ==> ParseInt(s) == None
    ensures |s| > 1 && s[0] == '-' && AllDigits(s[1..]) && DigitsValue(s[1..]) <= 0x8000_0000
            ==> ParseInt(s).Some? && ParseInt(s).value == -(DigitsValue(s[1..]) as int)
    ensures |s| > 1 && s[0] == '-' && AllDigits(s[1..]) && DigitsValue(s[1..]) > 0x8000_0000
            ==> ParseInt(s) == None
  {
    if ParseInt(s).Some? {
      if s[0] < '0' {
        assert IsDigit(s[1]);
      } else {
        assert IsDigit(s[0]);
      }
    }
  }

  lemma {:induction false} DigitsValueOfDigits(n: nat)
    ensures DigitsValue(Digits(n)) == n
  {
    if n >= 10 {
      var d := Digits(n / 10);
      DigitsValueOfDigits(n / 10);
      assert (d + [DigitChar(n % 10)])[..|d|] == d;
    }
  }

  /** Parsing the text Kotlin prints for an `Int` gives the `Int` back, negative values included. */
  lemma ParseIntToString(i: Int32)
    ensures ParseInt(IntToString(i)) == Some(i)
  {
    if i < 0 {
      DigitsValueOfDigits(-(i as int));
      assert ("-" + Digits(-(i as int)))[1..] == Digits(-(i as int));
    } else {
      DigitsValueOfDigits(i);
    }
  }
}

=== FILE: options.dfy ===
/** The optional-value wrapper used for lookups and parses that can fail. */
module Options {

  datatype Option<+T> = None | Some(value: T)
}

=== FILE: persistence.dfy ===
/**
 The load/save control flow of the configuration file, as a state machine over
 an abstract file state. The tree is an opaque value `T`; the pre-save event's
 observers and the file system are reduced to the answers they give.
 */
module Persistence {
  import opened Options
  import opened Strings

  /** What opening and deserializing the configuration file yields. */
  datatype FileState<T> =
    | Missing          // opening throws NoSuchFileException
    | Stored(tree: T)  // a document that deserializes into these leaf values
    | Corrupt          // a document the deserializer rejects
    | Unreadable       // opening fails for another I/O reason

  datatype LogEntry = Info(message: String) | Error(message: String) | StackTrace

  const Generated: String := "KAMI configuration file generated!"
  const FailedToLoad: String := "Failed to load KAMI configuration file"
  const SettingsLoaded: String := "Settings loaded"

  /** The collaborators' answers to one save: an observer cancelled the pre-save event; the write fails. */
  datatype SaveEnv = SaveEnv(cancelled: bool, writeFails: bool)

  /** The file after a save, and whether the save threw an I/O exception to its caller. */
  datatype Saved<T> = Saved(file: FileState<T>, failed: bool)

  /**
   `saveConfiguration`: the pre-save event is posted first; a cancelled event
   or an absent tree writes nothing; otherwise the tree is written, or the
   write's I/O failure is thrown to the caller.
   */
  function Save<T>(config: Option<T>, file: FileState<T>, env: SaveEnv): (r: Saved<T>)
    ensures env.cancelled || config.None? ==> r == Saved(file, false)
    ensures r.failed ==> r.file == file && env.writeFails
    ensures r.file != file ==> config.Some? && r.file == Stored(config.value)
    ensures !env.cancelled && config.Some? ==> r.failed || r.file == Stored(config.value)
    ensures !env.cancelled && config.Some? && env.writeFails ==> r.failed && r.file == file
  {
    if env.cancelled then Saved(file, false)
    else match config
      case None => Saved(file, false)
      case Some(t) => if env.writeFails then Saved(file, true) else Saved(Stored(t), false)
  }

  /** The tree after a load, the file, what was logged, and whether an exception escaped. */
  datatype Loaded<T> = Loaded(config: Option<T>, file: FileState<T>, log: seq<LogEntry>, thrown: bool)

  /**
   `loadConfiguration`: an absent tree is a no-op. A missing file triggers a
   save of the current tree; a failure of that save escapes. A stored document
   replaces the tree's values. Any other failure is logged and swallowed.
   */
  function Load<T>(config: Option<T>, file: FileState<T>, env: SaveEnv): (r: Loaded<T>)
    ensures config.None? ==> r == Loaded(config, file, [], false)
    ensures r.config.Some? <==> config.Some?
    ensures r.thrown ==> config.Some? && file.Missing? && !env.cancelled && env.writeFails
    ensures (config.Some? && (file.Corrupt? || file.Unreadable?))
            ==> r == Loaded(config, file, [Error(FailedToLoad)], false)
    ensures config.Some? && file.Missing? && !env.cancelled && env.writeFails
            ==> r.thrown && r.file == file
    // A cancelled bootstrap save still reports the file as generated.
    ensures config.Some? && file.Missing? && env.cancelled
            ==> r == Loaded(config, Missing, [Info(Generated)], false)
    ensures config.Some? && file.Stored? ==> r.config == Some(file.tree) && r.file == file && !r.thrown
  {
    match config
    case None => Loaded(config, file, [], false)
    case Some(t) =>
      match file
      case Missing =>
        var saved := Save(config, file, env);
        if saved.failed then Loaded(config, saved.file, [], true)
        else Loaded(config, saved.file, [Info(Generated)], false)
      case Stored(values) => Loaded(Some(values), file, [], false)
      case Corrupt => Loaded(config, file, [Error(FailedToLoad)], false)
      case Unreadable => Loaded(config, file, [Error(FailedToLoad)], false)
  }

  /** The tree `initAndLoad` returns, the file, and what was logged. */
  datatype Started<T> = Started(config: Option<T>, file: FileState<T>, log: seq<LogEntry>)

  /**
   `initAndLoad`: `constructed` is the outcome of building the tree (`None`
   when construction threw). Whatever happens while loading, a built tree is
   returned.
   */
  function InitAndLoad<T>(constructed: Option<T>, file: FileState<T>, env: SaveEnv): (r: Started<T>)
    ensures r.config.Some? <==> constructed.Some?
    ensures constructed.None? ==> r == Started(None, file, [StackTrace])
    ensures constructed.Some? ==> |r.log| > 0 && r.log[|r.log| - 1] == Info(SettingsLoaded)
    // What loading does to a built tree and its file, case by case.
    ensures constructed.Some? && file.Stored?
            ==> r == Started(Some(file.tree), file, [Info(SettingsLoaded)])
    ensures constructed.Some? && (file.Corrupt? || file.Unreadable?)
            ==> r == Started(constructed, file, [Error(FailedToLoad), Info(SettingsLoaded)])
    ensures constructed.Some? && file.Missing? && env.cancelled
            ==> r == Started(constructed, Missing, [Info(Generated), Info(SettingsLoaded)])
    ensures constructed.Some? && file.Missing? && !env.cancelled && !env.writeFails
            ==> r == Started(constructed, Stored(constructed.value), [Info(Generated), Info(SettingsLoaded)])
    // The escaped bootstrap failure is printed before `Settings loaded`, and the built tree is kept.
    ensures constructed.Some? && file.Missing? && !env.cancelled && env.writeFails
            ==> r == Started(constructed, Missing, [StackTrace, Info(SettingsLoaded)])
  {
    match constructed
    case None => Started(None, file, [StackTrace])
    case Some(_) =>
      var loaded := Load(constructed, file, env);
      Started(loaded.config, loaded.file, loaded.log + (if loaded.thrown then [StackTrace] else []) + [Info(SettingsLoaded)])
  }

  /* ---------------------------------------------------------------------
     Properties of the flow
     --------------------------------------------------------------------- */

  /** First run: a missing file is created from the tree's current values. */
  lemma Bootstrap<T>(t: T, env: SaveEnv)
    requires !env.cancelled && !env.writeFails
    ensures Load(Some(t), Missing, env) == Loaded(Some(t), Stored(t), [Info(Generated)], false)
  {
  }

  /** Loading again right after a load changes neither the tree nor the file. */
  lemma LoadIdempotent<T>(config: Option<T>, file: FileState<T>, env: SaveEnv)
    ensures var first := Load(config, file, env);
            var second := Load(first.config, first.file, env);
            second.config == first.config && second.file == first.file
  {
  }

  /** What a successful save writes, a later load reads back, whatever tree is loaded into. */
  lemma SaveThenLoad<T>(t: T, current: T, file: FileState<T>, env: SaveEnv, env2: SaveEnv)
    requires !env.cancelled && !env.writeFails
    ensures Load(Some(current), Save(Some(t), file, env).file, env2).config == Some(t)
  {
  }

  /** A load never lets an exception escape `initAndLoad`, and a built tree is never lost. */
  lemma StartupKeepsTree<T>(t: T, file: FileState<T>, env: SaveEnv)
    ensures InitAndLoad(Some(t), file, env).config.Some?
    ensures file.Corrupt? || file.Unreadable? ==> InitAndLoad(Some(t), file, env).config == Some(t)
    ensures !file.Stored? ==> InitAndLoad(Some(t), file, env).config == Some(t)
    ensures file.Stored? ==> InitAndLoad(Some(t), file, env).config == Some(file.tree)
  {
  }
}

=== FILE: strings.dfy ===
/**
 Models of the Kotlin standard-library string operations that the configuration
 codecs rely on: `startsWith`, `removePrefix`, `contains`, `replace`,
 `toLowerCase`, `indexOf` and `lastIndexOf`. Strings are sequences of Unicode
 scalar values (Dafny's `char`), not of UTF-16 code units as in Kotlin; case
 mapping is modelled for ASCII letters only.
 */
module Strings {

  type String = seq<char>

  /** `p` occurs in `s` starting at index `i`. */
  predicate OccursAt(s: String, p: String, i: int) {
    0 <= i && i + |p| <= |s| && s[i..i + |p|] == p
  }

  /** Kotlin `CharSequence.contains(other)`. */
  predicate Contains(s: String, p: String) {
    exists i | 0 <= i <= |s| - |p| :: OccursAt(s, p, i)
  }

  /** Kotlin `String.startsWith(prefix)`. */
  predicate StartsWith(s: String, p: String) {
    |p| <= |s| && s[..|p|] == p
  }

  /** Kotlin `String.removePrefix(prefix)`. */
  function RemovePrefix(s: String, p: String): (r: String)
    ensures StartsWith(s, p) ==> s == p + r
    ensures !StartsWith(s, p) ==> r == s
  {
    if StartsWith(s, p) then
      assert s == s[..|p|] + s[|p|..];
      s[|p|..]
    else s
  }

  lemma OccursAtChars(s: String, p: String, i: int)
    requires OccursAt(s, p, i)
    ensures forall t :: 0 <= t < |p| ==> s[i + t] == p[t]
  {
    forall t | 0 <= t < |p|
      ensures s[i + t] == p[t]
    {
      assert s[i..i + |p|][t] == s[i + t];
    }
  }

  lemma OccursAtChar(s: String, p: String, i: int, t: int)
    requires OccursAt(s, p, i) && 0 <= t < |p|
    ensures s[i + t] == p[t]
  {
    OccursAtChars(s, p, i);
  }

  /** A string that lacks one of the characters of `p` cannot contain `p`. */
  lemma MissingCharNotContained(s: String, p: String, j: int)
    requires 0 <= j < |p| && p[j] !in s
    ensures !Contains(s, p)
  {
    forall i | 0 <= i <= |s| - |p|
      ensures !OccursAt(s, p, i)
    {
      if OccursAt(s, p, i) {
        OccursAtChars(s, p, i);
      }
    }
  }

  /**
   No occurrence of `p` in `a + k` when some character of `p` is missing from
   `a` and the last character of `p` is missing from `k`.
   */
  lemma NotContainedAcross(a: String, k: String, p: String, j: int)
    requires 0 <= j < |p|
    requires p[j] !in a && p[|p| - 1] !in k
    ensures !Contains(a + k, p)
  {
    var s := a + k;
    forall i | 0 <= i <= |s| - |p|
      ensures !OccursAt(s, p, i)
    {
      if OccursAt(s, p, i) {
        if i + |p| <= |a| {
          assert s[i + j] == a[i + j];
        } else {
          assert s[i + |p| - 1] == k[i + |p| - 1 - |a|];
        }
        OccursAtChars(s, p, i);
      }
    }
  }

  lemma ContainsTail(s: String, p: String)
    requires |p| > 0 && |p| <= |s| && s[..|p|] != p
    ensures Contains(s, p) <==> Contains(s[1..], p)
  {
    if i :| OccursAt(s, p, i) {
      assert i != 0;
      assert s[1..][i - 1..i - 1 + |p|] == s[i..i + |p|];
      assert OccursAt(s[1..], p, i - 1);
    }
    if i :| OccursAt(s[1..], p, i) {
      assert s[1..][i..i + |p|] == s[i + 1..i + 1 + |p|];
      assert OccursAt(s, p, i + 1);
    }
  }

  lemma ContainsAfterPrefix(s: String, p: String)
    requires |p| > 0 && StartsWith(s, p)
    ensures Contains(s, p)
  {
    assert OccursAt(s, p, 0);
  }

  /**
   Kotlin `String.replace(part, "")`: scans left to right and deletes every
   non-overlapping occurrence of `part` it meets, without rescanning the text
   that the deletions bring together.
   */
  function RemoveAll(s: String, p: String): (r: String)
    requires |p| > 0
    ensures |r| <= |s|
    decreases |s|
  {
    if |s| < |p| then s
    else if s[..|p|] == p then RemoveAll(s[|p|..], p)
    else [s[0]] + RemoveAll(s[1..], p)
  }

  /** The removal changes the text exactly when `p` occurs in it. */
  lemma {:induction false} RemoveAllChanges(s: String, p: String)
    requires |p| > 0
    ensures RemoveAll(s, p) != s <==> Contains(s, p)
    decreases |s|
  {
    if |s| < |p| {
      assert !Contains(s, p);
    } else if s[..|p|] == p {
      ContainsAfterPrefix(s, p);
      assert |RemoveAll(s, p)| < |s|;
    } else {
      ContainsTail(s, p);
      RemoveAllChanges(s[1..], p);
      assert s == [s[0]] + s[1..];
      assert RemoveAll(s, p) == [s[0]] + RemoveAll(s[1..], p);
      assert RemoveAll(s, p)[1..] == RemoveAll(s[1..], p);
    }
  }

  /** An occurrence in the tail of `s` is an occurrence in `s`, one place later. */
  lemma OccursInTail(s: String, p: String, j: int)
    requires |s| > 0 && OccursAt(s[1..], p, j)
    ensures OccursAt(s, p, j + 1)
  {
    assert s[1..][j..j + |p|] == s[j + 1..j + 1 + |p|];
  }

  /** Without an occurrence at the front, the removal keeps the first character. */
  lemma RemoveAllCons(s: String, p: String)
    requires |p| > 0 && |s| > 0 && !OccursAt(s, p, 0)
    ensures RemoveAll(s, p) == [s[0]] + RemoveAll(s[1..], p)
  {
    if |s| < |p| {
      assert RemoveAll(s[1..], p) == s[1..];
      assert s == [s[0]] + s[1..];
    } else {
      assert s[..|p|] != p;
    }
  }

  /** No occurrence among the first `n` places of `s` means none among the first `n - 1` of its tail. */
  lemma NoneInTail(s: String, p: String, n: int)
    requires 0 < n <= |s|
    requires forall j | 0 <= j < n :: !OccursAt(s, p, j)
    ensures forall j | 0 <= j < n - 1 :: !OccursAt(s[1..], p, j)
  {
    forall j | 0 <= j < n - 1
      ensures !OccursAt(s[1..], p, j)
    {
      if OccursAt(s[1..], p, j) {
        OccursInTail(s, p, j);
      }
    }
  }

  /**
   When no occurrence of `p` starts inside the leading `w`, the removal keeps
   `w` in front and works on the rest.
   */
  lemma {:induction false} RemoveAllKeepsPrefix(w: String, rest: String, p: String)
    requires |p| > 0
    requires forall j | 0 <= j < |w| :: !OccursAt(w + rest, p, j)
    ensures RemoveAll(w + rest, p) == w + RemoveAll(rest, p)
  {
    if w == [] {
      assert w + rest == rest;
    } else {
      var s := w + rest;
      assert s[1..] == w[1..] + rest;
      assert !OccursAt(s, p, 0);
      RemoveAllCons(s, p);
      NoneInTail(s, p, |w|);
      RemoveAllKeepsPrefix(w[1..], rest, p);
      var x := RemoveAll(rest, p);
      assert [s[0]] + (w[1..] + x) == ([w[0]] + w[1..]) + x;
      assert [w[0]] + w[1..] == w;
    }
  }

  /** Occurrences in a suffix of `s` are the occurrences in `s` from that point on. */
  lemma OccursInSuffix(s: String, p: String, k: int, j: int)
    requires 0 <= k <= |s|
    ensures OccursAt(s[k..], p, j) <==> (j >= 0 && OccursAt(s, p, j + k))
  {
    if 0 <= j && j + |p| <= |s| - k {
      assert s[k..][j..j + |p|] == s[j + k..j + k + |p|];
    }
  }

  /** Every occurrence of `p` in `s` avoids the occurrence of `q` at `i`. */
  predicate AvoidsOccurrence(s: String, p: String, q: String, i: int) {
    forall j | 0 <= j <= |s| - |p| && OccursAt(s, p, j) :: j + |p| <= i || i + |q| <= j
  }

  lemma AvoidsInSuffix(s: String, p: String, q: String, i: int, k: int)
    requires 0 <= k <= |s| && AvoidsOccurrence(s, p, q, i)
    ensures AvoidsOccurrence(s[k..], p, q, i - k)
  {
    forall j | 0 <= j <= |s[k..]| - |p| && OccursAt(s[k..], p, j)
      ensures j + |p| <= i - k || i - k + |q| <= j
    {
      OccursInSuffix(s, p, k, j);
    }
  }

  /**
   An occurrence of `q` that no occurrence of `p` overlaps survives the
   removal of `p`.
   */
  lemma {:induction false} RemoveAllKeepsOccurrence(s: String, p: String, q: String, i: int)
    requires |p| > 0 && |q| > 0 && OccursAt(s, q, i)
    requires AvoidsOccurrence(s, p, q, i)
    ensures Contains(RemoveAll(s, p), q)
    decreases |s|
  {
    if |s| < |p| {
      assert OccursAt(RemoveAll(s, p), q, i);
    } else if s[..|p|] == p {
      assert OccursAt(s, p, 0);
      OccursInSuffix(s, q, |p|, i - |p|);
      AvoidsInSuffix(s, p, q, i, |p|);
      RemoveAllKeepsOccurrence(s[|p|..], p, q, i - |p|);
    } else if i == 0 {
      var rest := s[|q|..];
      assert s == q + rest;
      RemoveAllKeepsPrefix(q, rest, p);
      var r := q + RemoveAll(rest, p);
      assert r[..|q|] == q;
      assert OccursAt(r, q, 0);
    } else {
      assert !OccursAt(s, p, 0);
      OccursInSuffix(s, q, 1, i - 1);
      AvoidsInSuffix(s, p, q, i, 1);
      RemoveAllKeepsOccurrence(s[1..], p, q, i - 1);
      var r := RemoveAll(s[1..], p);
      var k :| 0 <= k <= |r| - |q| && OccursAt(r, q, k);
      RemoveAllCons(s, p);
      var u := [s[0]] + r;
      assert u[1..] == r;
      OccursInSuffix(u, q, 1, k);
      assert OccursAt(u, q, k + 1);
    }
  }

  /** Kotlin `String.replace(old, new)` on characters. */
  function ReplaceChar(s: String, from: char, to: char): (r: String)
    ensures |r| == |s|
    ensures from != to ==> from !in r
    ensures forall i :: 0 <= i < |s| && s[i] != from ==> r[i] == s[i]
  {
    seq(|s|, i requires 0 <= i < |s| => if s[i] == from then to else s[i])
  }

  function LowerChar(c: char): char {
    if 'A' <= c <= 'Z' then (c as int + 32) as char else c
  }

  /** Kotlin `String.toLowerCase()`, restricted to ASCII letters. */
  function ToLower(s: String): (r: String)
    ensures |r| == |s|
    ensures forall i :: 0 <= i < |s| ==> r[i] == LowerChar(s[i])
  {
    seq(|s|, i requires 0 <= i < |s| => LowerChar(s[i]))
  }

  /** A string that lower-casing leaves unchanged. */
  predicate IsLower(s: String) {
    forall i :: 0 <= i < |s| ==> !('A' <= s[i] <= 'Z')
  }

  lemma ToLowerOfLower(s: String)
    requires IsLower(s)
    ensures ToLower(s) == s
  {
  }

  /** Kotlin `indexOf(c)`: the first index holding `c`, or -1. */
  function IndexOf(s: String, c: char): (r: int)
    ensures -1 <= r < |s|
    ensures r >= 0 ==> s[r] == c
    ensures forall j :: 0 <= j < |s| && (r < 0 || j < r) ==> s[j] != c
    decreases |s|
  {
    if |s| == 0 then -1
    else if s[0] == c then 0
    else
      var r := IndexOf(s[1..], c);
      if r < 0 then -1 else r + 1
  }

  /** Kotlin `lastIndexOf(c)`: the last index holding `c`, or -1. */
  function LastIndexOf(s: String, c: char): (r: int)
    ensures -1 <= r < |s|
    ensures r >= 0 ==> s[r] == c
    ensures forall j :: r < j < |s| ==> s[j] != c
    decreases |s|
  {
    if |s| == 0 then -1
    else if s[|s| - 1] == c then |s| - 1
    else LastIndexOf(s[..|s| - 1], c)
  }
}

=== FILE: text_parts.dfy ===
/**
 The record codec of one part of a pinned text widget. A part is either a
 literal string or a variable; both carry seven style flags and a colour mode.
 The saved record holds the flags, the colour mode, a `type` tag and a
 `value` string.
 */
module TextParts {
  import opened Strings

  /** The style shared by both kinds of part; the colour mode is held by its enum constant name. */
  datatype Style = Style(
    obfuscated: bool, bold: bool, strike: bool, underline: bool,
    italic: bool, shadow: bool, extraspace: bool, colourMode: String)

  datatype Part =
    | Literal(text: String, style: Style)
    | Variable(name: String, style: Style)

  /** The saved record of a part. */
  datatype PartRecord = PartRecord(
    obfuscated: bool, bold: bool, strike: bool, underline: bool,
    italic: bool, shadow: bool, extraspace: bool, colourMode: String,
    tag: String, value: String)

  const LiteralTag: String := "literal"
  const VariableTag: String := "variable"
  const InvalidPart: String := "Invalid part"

  /** The variable that stands in for an unknown variable name. */
  const NoneVariable: String := "none"

  /** The style fields of a record, in the order the record lists them. */
  function StyleOf(r: PartRecord): Style {
    Style(r.obfuscated, r.bold, r.strike, r.underline, r.italic, r.shadow, r.extraspace, r.colourMode)
  }

  /**
   The decoder. `vars` is the set of known variable names; an unknown name
   selects the `none` variable, which the source requires to exist.
   */
  function Decode(vars: set<String>, r: PartRecord): (p: Part)
    requires NoneVariable in vars
    ensures p.style == StyleOf(r)
    ensures r.tag == LiteralTag ==> p == Literal(r.value, StyleOf(r))
    ensures r.tag == VariableTag ==> p.Variable? && p.name in vars
    ensures r.tag == VariableTag && r.value in vars ==> p.name == r.value
    ensures r.tag == VariableTag && r.value !in vars ==> p == Variable(NoneVariable, StyleOf(r))
    ensures r.tag != LiteralTag && r.tag != VariableTag ==> p == Literal(InvalidPart, StyleOf(r))
  {
    var style := StyleOf(r);
    if r.tag == LiteralTag then Literal(r.value, style)
    else if r.tag == VariableTag then
      Variable(if r.value in vars then r.value else NoneVariable, style)
    else Literal(InvalidPart, style)
  }

  /** The encoder: a literal is saved with its string, a variable with its name. */
  function Encode(p: Part): (r: PartRecord)
    ensures StyleOf(r) == p.style
    ensures r.tag == LiteralTag || r.tag == VariableTag
    ensures p.Literal? ==> r.tag == LiteralTag && r.value == p.text
    ensures p.Variable? ==> r.tag == VariableTag && r.value == p.name
  {
    match p
    case Literal(text, s) =>
      PartRecord(s.obfuscated, s.bold, s.strike, s.underline, s.italic, s.shadow, s.extraspace,
                 s.colourMode, LiteralTag, text)
    case Variable(name, s) =>
      PartRecord(s.obfuscated, s.bold, s.strike, s.underline, s.italic, s.shadow, s.extraspace,
                 s.colourMode, VariableTag, name)
  }

  /** A part whose variable, if any, is known. */
  predicate Known(vars: set<String>, p: Part) {
    p.Variable? ==> p.name in vars
  }

  /** Saving and loading a part gives it back whenever its variable is known. */
  lemma RoundTrip(vars: set<String>, p: Part)
    requires NoneVariable in vars && Known(vars, p)
    ensures Decode(vars, Encode(p)) == p
  {
  }

  /** Loading a saved record and saving it again gives a record that loads to the same part. */
  lemma DecodeNormalises(vars: set<String>, r: PartRecord)
    requires NoneVariable in vars
    ensures Decode(vars, Encode(Decode(vars, r))) == Decode(vars, r)
  {
    RoundTrip(vars, Decode(vars, r));
  }
}

=== FILE: windows.dfy ===
/**
 The codec of the module-window layout. The windows are saved as an ordered
 map whose key is `"<id>-<title>"` and whose value is the window's module
 groups; they are read back by splitting each key at its first `-` and parsing
 the part before it as the window id.
 */
module ModuleWindows {
  import opened Options
  import opened Strings
  import opened Numbers

  /** A window's module groups: group name to the names of the modules in it. */
  type Groups = map<String, seq<String>>

  datatype Window = Window(title: String, groups: Groups, id: Int32)

  /** One entry of the saved map; the entries are kept in insertion order. */
  datatype Entry = Entry(key: String, groups: Groups)


  /** Splits at the first `c`: the text before it and the text after it, or `None` when `c` is absent. */
  function SplitFirst(s: String, c: char): (r: Option<(String, String)>)
    ensures r.Some? ==> r.value.0 + [c] + r.value.1 == s && c !in r.value.0
    ensures r.None? ==> c !in s
  {
    var i := IndexOf(s, c);
    if i < 0 then None
    else
      assert s == s[..i] + [c] + s[i + 1..];
      Some((s[..i], s[i + 1..]))
  }

  /** A separator that does not occur before it is the one `SplitFirst` finds. */
  lemma SplitFirstAt(a: String, c: char, b: String)
    requires c !in a
    ensures SplitFirst(a + [c] + b, c) == Some((a, b))
  {
    var s := a + [c] + b;
    assert s[|a|] == c;
    assert forall j | 0 <= j < |a| :: s[j] == a[j];
    assert IndexOf(s, c) == |a|;
    assert s[..|a|] == a && s[|a| + 1..] == b;
  }

  /** The map key of a window. */
  function KeyOf(w: Window): String {
    IntToString(w.id) + "-" + w.title
  }

  /**
   For an id that is not negative the first `-` of a key is the one after the
   id, so the title may hold `-` of its own; a negative id puts a `-` first.
   */
  lemma KeySplits(w: Window)
    ensures w.id >= 0 ==> SplitFirst(KeyOf(w), '-') == Some((IntToString(w.id), w.title))
    ensures w.id < 0 ==> KeyOf(w)[0] == '-'
  {
    if w.id >= 0 {
      SplitFirstAt(Digits(w.id), '-', w.title);
    }
  }

  /** Reads a map key back as an id and a title; `None` where the source throws. */
  function ParseKey(key: String): (r: Option<(Int32, String)>)
  {
    match SplitFirst(key, '-')
    case None => None
    case Some((id, title)) =>
      match ParseInt(id)
      case None => None
      case Some(n) => Some((n, title))
  }

  /**
   A key without `-` does not read back. A key that does is the id's text, a
   `-` and the title, where the id's text has no `-` and parses to the id.
   */
  lemma ParseKeyShape(key: String)
    ensures '-' !in key ==> ParseKey(key).None?
    ensures ParseKey(key).Some? ==>
      var (id, title) := ParseKey(key).value;
      var n := |key| - |title| - 1;
      0 <= n && key[..n] + "-" + title == key && '-' !in key[..n] && ParseInt(key[..n]) == Some(id)
  {
  }

  /** A key reads back as its window's id and title exactly when the id is not negative. */
  lemma KeyRoundTrip(w: Window)
    ensures w.id >= 0 ==> ParseKey(KeyOf(w)) == Some((w.id, w.title))
    ensures w.id < 0 ==> ParseKey(KeyOf(w)) == None
  {
    var key := KeyOf(w);
    KeySplits(w);
    if w.id >= 0 {
      ParseIntToString(w.id);
    } else {
      assert IndexOf(key, '-') == 0;
    }
  }

  /** Windows with non-negative ids share a key only when they share id and title. */
  lemma KeyInjective(w1: Window, w2: Window)
    requires w1.id >= 0 && w2.id >= 0 && KeyOf(w1) == KeyOf(w2)
    ensures w1.id == w2.id && w1.title == w2.title
  {
    KeyRoundTrip(w1);
    KeyRoundTrip(w2);
  }

  /* ---------------------------------------------------------------------
     The saved map as an insertion-ordered association list
     --------------------------------------------------------------------- */

  /** No key appears twice. */
  predicate DistinctKeys(m: seq<Entry>) {
    |m| == 0 || (m[0].key !in Keys(m[1..]) && DistinctKeys(m[1..]))
  }

  function Keys(m: seq<Entry>): set<String> {
    if |m| == 0 then {} else {m[0].key} + Keys(m[1..])
  }

  function Get(m: seq<Entry>, key: String): Option<Groups> {
    if |m| == 0 then None
    else if m[0].key == key then Some(m[0].groups)
    else Get(m[1..], key)
  }

  /** `map[key] = groups` on an insertion-ordered map: a present key keeps its place and takes the new value. */
  function Put(m: seq<Entry>, key: String, g: Groups): (r: seq<Entry>)
    ensures Get(r, key) == Some(g)
    ensures forall k | k != key :: Get(r, k) == Get(m, k)
  {
    if |m| == 0 then [Entry(key, g)]
    else if m[0].key == key then [Entry(key, g)] + m[1..]
    else [m[0]] + Put(m[1..], key, g)
  }

  /** Putting adds the key, keeps keys distinct, and appends an entry only for a new key. */
  lemma {:induction false} PutKeys(m: seq<Entry>, key: String, g: Groups)
    ensures Keys(Put(m, key, g)) == Keys(m) + {key}
    ensures DistinctKeys(m) ==> DistinctKeys(Put(m, key, g))
    ensures key !in Keys(m) ==> Put(m, key, g) == m + [Entry(key, g)]
    ensures key in Keys(m) ==> |Put(m, key, g)| == |m|
  {
    if |m| > 0 {
      var r := Put(m, key, g);
      if m[0].key == key {
        assert r[1..] == m[1..];
      } else {
        PutKeys(m[1..], key, g);
        assert r[1..] == Put(m[1..], key, g);
        if key !in Keys(m) {
          assert m == [m[0]] + m[1..];
          assert [m[0]] + (m[1..] + [Entry(key, g)]) == ([m[0]] + m[1..]) + [Entry(key, g)];
        }
      }
    }
  }

  /** The keys of a sequence of windows. */
  function WindowKeys(ws: seq<Window>): set<String> {
    if |ws| == 0 then {} else WindowKeys(ws[..|ws| - 1]) + {KeyOf(ws[|ws| - 1])}
  }

  lemma {:induction false} NotInWindowKeys(ws: seq<Window>, k: String)
    requires forall j | 0 <= j < |ws| :: KeyOf(ws[j]) != k
    ensures k !in WindowKeys(ws)
  {
    if |ws| > 0 {
      var init := ws[..|ws| - 1];
      assert forall j | 0 <= j < |init| :: init[j] == ws[j];
      NotInWindowKeys(init, k);
    }
  }

  /** The encoder: one `put` per window, in order. */
  function EncodeWindows(ws: seq<Window>): (m: seq<Entry>)
    ensures DistinctKeys(m)
    ensures Keys(m) == WindowKeys(ws)
    ensures |m| <= |ws|
  {
    if |ws| == 0 then []
    else
      var init := ws[..|ws| - 1];
      var w := ws[|ws| - 1];
      PutKeys(EncodeWindows(init), KeyOf(w), w.groups);
      Put(EncodeWindows(init), KeyOf(w), w.groups)
  }

  /** Each key holds the groups of the last window with that key. */
  lemma {:induction false} LaterWindowWins(ws: seq<Window>, i: int)
    requires 0 <= i < |ws|
    requires forall j | i < j < |ws| :: KeyOf(ws[j]) != KeyOf(ws[i])
    ensures Get(EncodeWindows(ws), KeyOf(ws[i])) == Some(ws[i].groups)
  {
    var init := ws[..|ws| - 1];
    var last := ws[|ws| - 1];
    assert EncodeWindows(ws) == Put(EncodeWindows(init), KeyOf(last), last.groups);
    if i < |ws| - 1 {
      assert init[i] == ws[i];
      forall j | i < j < |init|
        ensures KeyOf(init[j]) != KeyOf(init[i])
      {
        assert init[j] == ws[j];
      }
      LaterWindowWins(init, i);
      assert KeyOf(last) != KeyOf(ws[i]);
    }
  }

  /** Two windows with the same id and title collapse into one entry holding the later groups. */
  lemma SameKeyCollapses(w1: Window, w2: Window)
    requires w1.id == w2.id && w1.title == w2.title
    ensures EncodeWindows([w1, w2]) == [Entry(KeyOf(w2), w2.groups)]
  {
    assert [w1, w2][..1] == [w1];
    assert [w1][..0] == [];
  }

  /* ---------------------------------------------------------------------
     Decoding and the round trip
     --------------------------------------------------------------------- */

  /** The decoder: one window per entry, in entry order; it fails if any key does not read back. */
  function DecodeEntries(m: seq<Entry>): (r: Option<seq<Window>>)
    ensures r.None? <==> exists i | 0 <= i < |m| :: ParseKey(m[i].key).None?
    ensures r.Some? ==> |r.value| == |m|
    ensures r.Some? ==> forall i | 0 <= i < |m| ::
              ParseKey(m[i].key) == Some((r.value[i].id, r.value[i].title)) && r.value[i].groups == m[i].groups
  {
    if |m| == 0 then Some([])
    else
      match ParseKey(m[0].key)
      case None => None
      case Some((id, title)) =>
        match DecodeEntries(m[1..])
        case None =>
          var i :| 0 <= i < |m[1..]| && ParseKey(m[1..][i].key).None?;
          assert ParseKey(m[i + 1].key).None?;
          None
        case Some(rest) =>
          assert forall i | 1 <= i < |m| :: m[i] == m[1..][i - 1];
          Some([Window(title, m[0].groups, id)] + rest)
  }

  /** No two windows share both id and title. */
  predicate UniqueWindows(ws: seq<Window>) {
    forall i, j | 0 <= i < j < |ws| :: ws[i].id != ws[j].id || ws[i].title != ws[j].title
  }

  /** One entry per window, in window order. */
  function Entries(ws: seq<Window>): (m: seq<Entry>)
    ensures |m| == |ws|
  {
    seq(|ws|, i requires 0 <= i < |ws| => Entry(KeyOf(ws[i]), ws[i].groups))
  }

  /** Without collisions the encoder writes one entry per window, in window order. */
  lemma {:induction false} EncodeUnique(ws: seq<Window>)
    requires forall i | 0 <= i < |ws| :: ws[i].id >= 0
    requires UniqueWindows(ws)
    ensures EncodeWindows(ws) == Entries(ws)
  {
    if |ws| > 0 {
      var init := ws[..|ws| - 1];
      var w := ws[|ws| - 1];
      assert UniqueWindows(init);
      EncodeUnique(init);
      var prev := EncodeWindows(init);
      forall j | 0 <= j < |init|
        ensures KeyOf(init[j]) != KeyOf(w)
      {
        assert init[j] == ws[j];
        if KeyOf(init[j]) == KeyOf(w) {
          KeyInjective(init[j], w);
        }
      }
      NotInWindowKeys(init, KeyOf(w));
      assert KeyOf(w) !in Keys(prev);
      PutKeys(prev, KeyOf(w), w.groups);
      assert EncodeWindows(ws) == prev + [Entry(KeyOf(w), w.groups)];
    }
  }

  /** Windows with non-negative ids and distinct (id, title) pairs survive a save and a load unchanged. */
  lemma {:induction false} RoundTrip(ws: seq<Window>)
    requires forall i | 0 <= i < |ws| :: ws[i].id >= 0
    requires UniqueWindows(ws)
    ensures DecodeEntries(EncodeWindows(ws)) == Some(ws)
  {
    EncodeUnique(ws);
    var m := EncodeWindows(ws);
    forall i | 0 <= i < |m|
      ensures ParseKey(m[i].key) == Some((ws[i].id, ws[i].title))
    {
      KeyRoundTrip(ws[i]);
    }
    var r := DecodeEntries(m);
    assert r.Some?;
    var back := r.value;
    forall i | 0 <= i < |ws|
      ensures back[i] == ws[i]
    {
      assert (back[i].id, back[i].title) == (ws[i].id, ws[i].title);
      assert back[i].groups == m[i].groups == ws[i].groups;
    }
    assert back == ws;
  }

  /** A window with a negative id is saved under a key that no longer loads. */
  lemma NegativeIdBreaksLoad(w: Window)
    requires w.id < 0
    ensures DecodeEntries(EncodeWindows([w])).None?
  {
    assert [w][..0] == [];
    KeyRoundTrip(w);
    assert EncodeWindows([w])[0].key == KeyOf(w);
  }
}
